=== FILE: README.md ===
# Offline task queue and reconciler of the CHECK to-do client

This project models the offline-first core of the browser to-do client in
`JS/app.js`. When the user adds, toggles, edits or deletes a task, the client
changes its in-memory task list first (an optimistic update). It then either
confirms the change with the server or records it in a pending-operation queue
kept in local storage. When the client comes back online, `syncPending`
replays the queue in order. It swaps server records in for the temporary
entries of confirmed adds and keeps only the failed operations for the next
pass.

Everything is a pure function over the pair (task list, pending queue):

- `json.dfy` (module `Json`) covers the loose JavaScript values read from storage and from responses. It also covers `??`, truthiness, `||` and `String(x)`.
- `text.dfy` (module `Text`) covers `String.prototype.trim` and `escapeHtml`, plus a decoder of the five entities that serves as the reference for what escaping keeps.
- `selections.dfy` (module `Selections`) defines order-preserving selection by index witnesses: "exactly these elements, in their original order".
- `tasks.dfy` (module `TaskModel`) covers `normalizeTask`, the record `saveLocal` stores, `loadLocal`, the response-shape extraction of `fetchTasks`, and `findIndex`/`filter` on the task list.
- `sync.dfy` (module `Reconciler`) covers the pending operations, the per-request outcome oracle and `syncPending` as a fold.
- `actions.dfy` (module `Actions`) covers `onAdd`, `onToggleComplete`, `onDelete` and `finishEdit`. It also holds the invariant they all keep, and scenarios that combine an action with a later pass.

Parameters replace what the code gets from its environment:

- `navigator.onLine` and the server's answer become a `Connectivity` value (`Offline`, or `Online` with an `Outcome`).
- `finishEdit` never consults connectivity, so it takes an `Outcome` directly.
- Each reading of `Date.now()` becomes a `now: nat` argument.
- The answers to the requests of one `syncPending` pass are a sequence of outcomes, one per queued operation.

The model keeps these behaviours of the code:

- The actions differ in their failure policy. An online failure of `onToggleComplete` rolls back the checkbox and queues nothing (lines 316-318).
- An online failure of `onDelete` restores the previous list and queues nothing (lines 333-335).
- An online failure of `onAdd` keeps the optimistic task and queues the `add` (lines 295-300).
- `finishEdit` makes its request even when offline, and queues on any failure (lines 205-214).
- A response body that decodes to `null` makes `fetchTasks` read `data.tasks` on `null` (line 243). That throws, so the code falls back to the cache instead of yielding an empty list. `ExtractTaskArray` returns `None` here.
- A successful `add` whose response body is falsy (empty text, or `null`) replaces the optimistic task by a record built from the op's own fields, so the task keeps `temp-<now>` as its id until the next successful `fetchTasks` replaces the whole list (line 250).
- Temporary ids inside queued `update`/`delete` operations are not rewritten when an `add` resolves (lines 88-89).
- A queue entry that is an object whose `type` is none of `add`, `update` or `delete` is dropped silently by `syncPending`. No branch of lines 83-97 pushes it back onto `remaining`. The model has an `Unrecognized` operation for this. The model represents such unrecognised object entries, but not `null` entries: a `null` entry would throw at line 83 and be kept by line 98.

## Model

| member | source | states |
|---|---|---|
| `Json.Or` | JS/app.js:89 | `saved \|\| record` is `saved` when that is truthy and `record` otherwise, so it is truthy exactly when one of them is |
| `Json.NatToString` | JS/app.js:268 | the decimal text of a clock reading is non-empty, all digits, and has no leading zero unless the reading is 0 |
| `Json.NatToStringInjective` | JS/app.js:268 | reading back the decimal text gives the number, so distinct clock readings give distinct texts |
| `Text.Trim` | JS/app.js:266 | the trimmed title is empty exactly when the input is all whitespace; otherwise it is the slice between the first and last non-whitespace characters |
| `Text.TrimIdempotent` | JS/app.js:198 | trimming an already trimmed title changes nothing |
| `Text.EscapeHtml` | JS/app.js:57-59 | escaped text contains none of `<`, `>`, `"`, `'`, is no shorter than the input, and equals the input when the input has none of the five special characters |
| `Text.EscapedAmpersandsBeginEntities` | JS/app.js:57-59 | every `&` in escaped text begins one of `&amp;`, `&lt;`, `&gt;`, `&quot;`, `&#39;` |
| `Text.UnescapeInvertsEscape` | JS/app.js:57-59 | decoding the five entities in escaped text gives back the input, so every other character is kept, in order |
| `TaskModel.NormalizeTask` | JS/app.js:47-55 | the normalised task never carries the temporary flag; a falsy record gives id = clock text, empty title, not completed; the id is the text of the first of `id`, `_id`, `uuid`, `_key` that is neither null nor undefined (a number as its decimal text), else the clock text; the title is the text of the first such of `title`, `task`, `description`, else `''`; `completed` is the truthiness of the `completed` key |
| `TaskModel.NormalizeEncoded` | JS/app.js:61-67 | a stored task record normalises back to the task without its temporary flag, whatever the clock reads |
| `TaskModel.NormalizeIdempotent` | JS/app.js:47-55 | normalising a normalised record again, after storing it, gives the same task |
| `TaskModel.SaveLocal` | JS/app.js:61-63 | the task slot holds an array with one record per task |
| `TaskModel.LoadLocal` | JS/app.js:64-70 | an absent, unreadable or non-array slot loads as the empty list; an array loads one task per element, the normalisation of that element; no loaded task carries the temporary flag |
| `TaskModel.LoadAfterSave` | JS/app.js:61-67 | loading what was saved gives the saved tasks minus their temporary flags |
| `TaskModel.LoadAfterSaveExact` | JS/app.js:61-67 | for a list with no optimistic entries, loading what was saved gives exactly the saved list |
| `TaskModel.ExtractTaskArray` | JS/app.js:241-249 | an array body is taken as is; otherwise its `tasks` array; otherwise its `data` array; any other non-null body gives the empty array; a `null` or `undefined` body, and only such a body, gives no list |
| `TaskModel.TasksFromResponse` | JS/app.js:241-250 | the fetched list is missing exactly for a `null`/`undefined` body; otherwise it has one task per element of the extracted array, each the normalisation of that element, and never an optimistic entry |
| `TaskModel.ResponseShapesAgree` | JS/app.js:241-250 | any array of records, sent bare, under `tasks` or under `data`, yields the same tasks: the element-wise normalisation of the array |
| `TaskModel.SavedListShapesAgree` | JS/app.js:241-250 | a list the client stored, served back in any of the three shapes, yields the stored tasks minus their temporary flags |
| `TaskModel.FindIndex` | JS/app.js:88 | the result is -1 exactly when no task has the id; otherwise it is the first position holding the id |
| `TaskModel.FindIndexAppend` | JS/app.js:270 | appending a task keeps the first match of an id already present; otherwise the appended task is the first match of its own id |
| `TaskModel.ReplaceFirst` | JS/app.js:88-89 | only the first task with the id is replaced, the length is kept, and nothing changes when no task has the id |
| `TaskModel.RemoveAll` | JS/app.js:324 | no kept task has the id, every task with another id is kept, nothing new appears, and the list is unchanged when no task has the id |
| `TaskModel.RemoveAllKeepsOthersInOrder` | JS/app.js:324 | the filtered list selects exactly the positions whose id differs, in increasing order |
| `Reconciler.ConfirmedTask` | JS/app.js:86-89 | a confirmed task is never temporary; with a truthy body it is the normalisation of the body, so it takes the server's id; with a falsy body it is the op's own temporary id and title, not completed |
| `Reconciler.ReplayTasks` | JS/app.js:83-97 | only a successful `add` changes the list; it replaces exactly the first task holding its temporary id, or nothing when no task holds it |
| `Reconciler.Pass` | JS/app.js:80-99 | the list keeps its length; the new queue is no longer than the sent requests, which are no more than the queue |
| `Reconciler.SyncPending` | JS/app.js:77-103 | an empty queue changes nothing and sends no request; the list keeps its length and the queue never grows |
| `Reconciler.AllFailedKeepsQueue` | JS/app.js:80-100 | when every request fails, the queue and the list come back unchanged and every op was sent once |
| `Reconciler.AllSucceededDrainsQueue` | JS/app.js:80-101 | when every request succeeds, the queue is empty afterwards |
| `Reconciler.TasksUnchangedWithoutConfirmedAdd` | JS/app.js:85-96 | without a successful `add`, the pass leaves the task list exactly as it was |
| `Reconciler.RemainingIsFailedSubsequence` | JS/app.js:80-100 | the new queue is exactly the recognised ops whose request failed, in their original relative order |
| `Reconciler.SentInQueueOrder` | JS/app.js:81-97 | each recognised op is sent exactly once, strictly in queue order |
| `Reconciler.PassTasksOrigin` | JS/app.js:85-89 | every position of the list after a pass holds either its old task or the confirmed task of some successful `add` of the queue, normalised from the server's body or the op's own fields |
| `Reconciler.OrderPreservedExample` | JS/app.js:80-100 | with `[a, b, c]` queued, `b` failing and `a`, `c` succeeding, the queue afterwards is `[b]` |
| `Actions.TempIdIsTemp` | JS/app.js:268 | a temporary id starts with `temp-` |
| `Actions.TempIdInjective` | JS/app.js:268 | two temporary ids are equal only when the clock readings are |
| `Actions.OnAdd` | JS/app.js:263-302 | a blank title leaves the state alone; otherwise exactly one task is appended; offline or on failure the optimistic task has the temporary id, the trimmed title, not completed and flagged, and exactly one `add` with that title and id is queued; on success nothing is queued and, when the temporary id was new, the appended task is the server's record |
| `Actions.OnToggleComplete` | JS/app.js:304-320 | only the `completed` field of the first matching task can change; an online failure restores the exact previous state and queues nothing; offline exactly one `update` with the new value is queued; an unknown id changes nothing |
| `Actions.OnDelete` | JS/app.js:322-337 | offline or on success every task with the id is removed and the others kept; offline exactly one `delete` is queued; an online failure restores the exact previous state and queues nothing |
| `Actions.FinishEdit` | JS/app.js:196-216 | a blank title or unknown id leaves the state alone; on failure the list is exactly as before and exactly one `update` with the trimmed title is queued; on success only the title of the first matching task changes and nothing is queued |
| `Actions.LoadedStateValid` | JS/app.js:64-70 | a loaded or freshly fetched list satisfies the state invariant |
| `Actions.OnAddPreservesValid` | JS/app.js:263-302 | `onAdd` keeps the invariant: every flagged task carries a temporary id, and queued ops carry trimmed non-blank titles and temporary add ids |
| `Actions.OnTogglePreservesValid` | JS/app.js:304-320 | `onToggleComplete` keeps the invariant |
| `Actions.OnDeletePreservesValid` | JS/app.js:322-337 | `onDelete` keeps the invariant |
| `Actions.FinishEditPreservesValid` | JS/app.js:196-216 | `finishEdit` keeps the invariant |
| `Actions.SyncPreservesValid` | JS/app.js:77-103 | a reconciliation pass keeps the invariant |
| `Actions.AddOfflineThenSync` | JS/app.js:274-279 | a task added offline appears at once under its temporary id with one `add` queued; a successful pass then leaves one entry for it and empties the queue; that entry is the normalised server record with the server's id when the body is truthy, and keeps the temporary id when the body is falsy |
| `Actions.DeleteOfflineThenSync` | JS/app.js:326-329 | a task deleted offline disappears at once with one `delete` queued; a successful pass empties the queue without restoring the task |
| `Actions.EditFailureThenSync` | JS/app.js:209-214 | a rejected edit is rolled back and queued; after the queued update succeeds the queue is empty and the list still shows the old title |

## Left out

- DOM rendering and event wiring are UI glue with no effect on the two sequences. This covers `createTaskLi`, `renderTasks`, `startEdit`, `cancelEdit`, `showError`, `showLoader`, `setAddButtonLoading` and the `DOMContentLoaded` handler. The lookup of a task's list item (`li[data-id="<id>"]`, lines 197, 305 and 323) becomes "some task has this id". That is exact only for ids without a quote, backslash, line break, form feed or NUL, and only when no two tasks share the id. For an id with one of those characters the selector throws or finds nothing, and the client changes nothing, while the model still performs the action. When two tasks share an id, `onDelete` removes both tasks but only the first list item (line 324); the second item still finds itself with the selector, so a later delete from it queues a second `delete` offline, while the model's `OnDelete` does nothing for an id no task carries. The missing-`taskInput` guard of `onAdd` (line 265) is not represented.
- Status banners are not represented. This includes the "All changes synced with server" notice after a pass that drains the queue (line 101).
- `safeFetch`, `safeParseJson` and `fetch` are foreign calls. Their combined effect is the abstract `Outcome`: failure, or success with a decoded body.
- `localStorage` and JSON text are modelled away. Both storage slots are plain values, and the pending slot is the queue itself. A storage error on a read, like a parse error, means "absent", which loads as empty. Every write (`saveLocal` at line 61, `savePending` at line 75) is assumed to succeed. When one fails, the client swallows the error and keeps the old slot: since each action re-reads the queue from the slot, a failed write at line 214, 276, 298, 310 or 327 loses the op just queued, and a failed write after a pass (line 100) leaves the old queue in place. The model always appends to, or replaces, the queue.
- `updateProgress` is left out. It computes a floating-point percentage for display only.
- Numbers are integers only, because the client stores only millisecond clock readings and integer ids. `String(x)` of fractions, NaN or exponent-notation values, and objects with a custom `toString`, do not arise from `JSON.parse` of such data.
- `navigator.onLine`, `Date.now()` and timers are parameters. One action or pass uses one clock reading.
- Concurrency between the `online` handler's `syncPending()` and `fetchTasks()`, and between awaits, is not modelled. Each action and each pass is atomic. On startup the pass runs from `fetchTasks` after the list has been replaced by the fetched records (lines 250 then 254), so it runs on a freshly fetched list with no temporary entries and a replayed `add` finds nothing to replace. On the `online` event (line 359) the pass and a second `fetchTasks` run concurrently, and the fetch replaces the list afterwards.
- Timeouts, an error taxonomy, and rewriting temporary ids in queued ops do not exist in the code, so they are not modelled.
- The rest of `fetchTasks` is orchestration around the modelled pieces. This covers the offline branch, the cache fallback and the call to `syncPending`. Lines 241-250 are modelled by `TasksFromResponse`, and the cache by `LoadLocal`.
- `JS/auth.js` and `Uniuyo/Singup page codes/auth.js` are not part of this model. They are form toggling and two requests with no queue logic.
- Actions.OnAdd: an earlier task can already carry the same temporary id, when two adds happen within one millisecond. For that case the contract states only the length of the list and the empty change to the queue. The body replaces that earlier task, as the client's `findIndex` does.

=== FILE: actions.dfy ===
/**
 The four mutating user actions of the to-do client as pure transitions on
 the pair (task list, pending queue). Connectivity (`navigator.onLine`) and
 the server's answer are parameters; each action is one atomic step.

 The page shows one list item per task, and the client finds the item for an
 id with the selector `li[data-id="<id>"]`. The model takes that lookup to
 succeed when some task carries the id, which holds for ids without a quote,
 a backslash, a line break, a form feed or a NUL, and when no two tasks share
 the id; an action on an id no task carries does nothing.
 */
module Actions {
  import opened Json
  import opened Text
  import opened TaskModel
  import opened Reconciler

  datatype State = State(tasks: seq<Task>, pending: seq<Op>)

  /** What `navigator.onLine` reports, and when online, how the request the
      action makes turns out. */
  datatype Connectivity = Offline | Online(outcome: Outcome)

  predicate ConfirmedOnline(net: Connectivity)
  {
    net.Online? && net.outcome.Succeeded?
  }

  predicate FailedOnline(net: Connectivity)
  {
    net.Online? && net.outcome.Failed?
  }

  /** The id an optimistic task gets: `temp-<Date.now()>`. */
  function TempId(now: nat): string
  {
    "temp-" + NatToString(now)
  }

  predicate IsTempId(id: string)
  {
    |id| >= 5 && id[..5] == "temp-"
  }

  lemma TempIdIsTemp(now: nat)
    ensures IsTempId(TempId(now))
  {
    assert TempId(now)[..5] == "temp-";
  }

  /** Distinct clock readings give distinct temporary ids. */
  lemma TempIdInjective(now: nat, other: nat)
    requires TempId(now) == TempId(other)
    ensures now == other
  {
    assert TempId(now)[5..] == NatToString(now);
    assert TempId(other)[5..] == NatToString(other);
    NatToStringInjective(now);
    NatToStringInjective(other);
  }

  // ---------------------------------------------------------------------
  // onAdd
  // ---------------------------------------------------------------------

  /** `onAdd`: a blank title is rejected; otherwise an optimistic task is
      appended, and the `add` is queued when offline or when the request
      fails. On success the first task carrying the temporary id is replaced
      by the server's record and nothing is queued. */
  function OnAdd(s: State, input: string, now: nat, net: Connectivity): (r: State)
    ensures Trim(input) == "" ==> r == s
    ensures Trim(input) != "" ==> |r.tasks| == |s.tasks| + 1
    ensures Trim(input) != "" && !ConfirmedOnline(net) ==>
              r == State(s.tasks + [Task(TempId(now), Trim(input), false, true)],
                         s.pending + [AddOp(Trim(input), TempId(now))])
    ensures ConfirmedOnline(net) ==> r.pending == s.pending
    ensures Trim(input) != "" && ConfirmedOnline(net) && !HasId(s.tasks, TempId(now)) ==>
              r.tasks == s.tasks + [ConfirmedTask(Trim(input), TempId(now), net.outcome.body, now)]
  {
    var text := Trim(input);
    if text == "" then s
    else
      var tempId := TempId(now);
      var optimistic := s.tasks + [Task(tempId, text, false, true)];
      if ConfirmedOnline(net) then
        var saved := ConfirmedTask(text, tempId, net.outcome.body, now);
        FindIndexAppend(s.tasks, Task(tempId, text, false, true), tempId);
        State(ReplaceFirst(optimistic, tempId, saved), s.pending)
      else
        State(optimistic, s.pending + [AddOp(text, tempId)])
  }

  // ---------------------------------------------------------------------
  // onToggleComplete
  // ---------------------------------------------------------------------

  /** `onToggleComplete`: the first task with `id` gets the new `completed`
      value. Offline the update is queued; an online failure writes the
      previous value back and queues nothing. */
  function OnToggleComplete(s: State, id: string, completed: bool, net: Connectivity): (r: State)
    ensures !HasId(s.tasks, id) ==> r == s
    ensures |r.tasks| == |s.tasks|
    ensures forall j :: 0 <= j < |s.tasks| && j != FindIndex(s.tasks, id) ==> r.tasks[j] == s.tasks[j]
    ensures HasId(s.tasks, id) ==>
              r.tasks[FindIndex(s.tasks, id)].(completed := s.tasks[FindIndex(s.tasks, id)].completed)
                == s.tasks[FindIndex(s.tasks, id)]
    ensures FailedOnline(net) ==> r == s
    ensures HasId(s.tasks, id) && !FailedOnline(net) ==> r.tasks[FindIndex(s.tasks, id)].completed == completed
    ensures HasId(s.tasks, id) && net.Offline? ==> r.pending == s.pending + [UpdateOp(id, CompletedPatch(completed))]
    ensures ConfirmedOnline(net) ==> r.pending == s.pending
  {
    var i := FindIndex(s.tasks, id);
    if i == -1 then s
    else
      var prevCompleted := s.tasks[i].completed;
      var toggled := s.tasks[i := s.tasks[i].(completed := completed)];
      match net
      case Offline => State(toggled, s.pending + [UpdateOp(id, CompletedPatch(completed))])
      case Online(Failed) => State(toggled[i := toggled[i].(completed := prevCompleted)], s.pending)
      case Online(Succeeded(_)) => State(toggled, s.pending)
  }

  // ---------------------------------------------------------------------
  // onDelete
  // ---------------------------------------------------------------------

  /** `onDelete`: every task with `id` is filtered out. Offline the delete is
      queued; an online failure restores the previous list and queues
      nothing. */
  function OnDelete(s: State, id: string, net: Connectivity): (r: State)
    ensures !HasId(s.tasks, id) ==> r == s
    ensures FailedOnline(net) ==> r == s
    ensures !FailedOnline(net) ==> r.tasks == RemoveAll(s.tasks, id) && !HasId(r.tasks, id)
    ensures HasId(s.tasks, id) && net.Offline? ==> r.pending == s.pending + [DeleteOp(id)]
    ensures ConfirmedOnline(net) ==> r.pending == s.pending
  {
    if !HasId(s.tasks, id) then s
    else
      var prevTasks := s.tasks;
      var kept := RemoveAll(s.tasks, id);
      match net
      case Offline => State(kept, s.pending + [DeleteOp(id)])
      case Online(Failed) => State(prevTasks, s.pending)
      case Online(Succeeded(_)) => State(kept, s.pending)
  }

  // ---------------------------------------------------------------------
  // finishEdit
  // ---------------------------------------------------------------------

  /** `finishEdit`: a blank title is rejected; otherwise the first task with
      `id` gets the trimmed title and the request is always made, whatever
      the connectivity. On failure the previous title is written back and
      the update is queued. */
  function FinishEdit(s: State, id: string, input: string, outcome: Outcome): (r: State)
    ensures Trim(input) == "" || !HasId(s.tasks, id) ==> r == s
    ensures |r.tasks| == |s.tasks|
    ensures forall j :: 0 <= j < |s.tasks| && j != FindIndex(s.tasks, id) ==> r.tasks[j] == s.tasks[j]
    ensures outcome.Failed? ==> r.tasks == s.tasks
    ensures Trim(input) != "" && HasId(s.tasks, id) && outcome.Failed? ==>
              r.pending == s.pending + [UpdateOp(id, TitlePatch(Trim(input)))]
    ensures outcome.Succeeded? ==> r.pending == s.pending
    ensures Trim(input) != "" && HasId(s.tasks, id) && outcome.Succeeded? ==>
              r.tasks[FindIndex(s.tasks, id)] == s.tasks[FindIndex(s.tasks, id)].(title := Trim(input))
  {
    var newValue := Trim(input);
    if newValue == "" then s
    else
      var i := FindIndex(s.tasks, id);
      if i == -1 then s
      else
        var prevTitle := s.tasks[i].title;
        var edited := s.tasks[i := s.tasks[i].(title := newValue)];
        match outcome
        case Succeeded(_) => State(edited, s.pending)
        case Failed =>
          State(edited[i := edited[i].(title := prevTitle)], s.pending + [UpdateOp(id, TitlePatch(newValue))])
  }

  // ---------------------------------------------------------------------
  // The invariant every transition keeps
  // ---------------------------------------------------------------------

  /** A title as the actions accept it: non-blank and already trimmed. */
  predicate IsTitle(t: string)
  {
    t != "" && Trim(t) == t
  }

  /** The shape of every op the actions queue. */
  predicate WellFormedOp(op: Op)
  {
    match op
    case AddOp(title, tempId) => IsTitle(title) && IsTempId(tempId)
    case UpdateOp(_, payload) => payload.TitlePatch? ==> IsTitle(payload.title)
    case DeleteOp(_) => true
    case Unrecognized => false
  }

  /** Every task carrying the `_temp` flag carries a temporary id; the
      queue holds only ops the actions create. */
  ghost predicate Valid(s: State)
  {
    && (forall j :: 0 <= j < |s.tasks| && s.tasks[j].temp ==> IsTempId(s.tasks[j].id))
    && (forall k :: 0 <= k < |s.pending| ==> WellFormedOp(s.pending[k]))
  }

  lemma TrimmedIsTitle(input: string)
    requires Trim(input) != ""
    ensures IsTitle(Trim(input))
  {
    TrimIdempotent(input);
  }

  /** Whatever the storage slot holds, a freshly loaded list with an empty
      queue satisfies the invariant, and so does a freshly fetched list
      with any valid queue. */
  lemma LoadedStateValid(slot: Option<Value>, data: Value, pending: seq<Op>, now: nat)
    requires forall k :: 0 <= k < |pending| ==> WellFormedOp(pending[k])
    ensures Valid(State(LoadLocal(slot, now), []))
    ensures TasksFromResponse(data, now).Some? ==> Valid(State(TasksFromResponse(data, now).value, pending))
  {
  }

  lemma OnAddPreservesValid(s: State, input: string, now: nat, net: Connectivity)
    requires Valid(s)
    ensures Valid(OnAdd(s, input, now, net))
  {
    if Trim(input) != "" {
      TrimmedIsTitle(input);
      TempIdIsTemp(now);
      var r := OnAdd(s, input, now, net);
      if ConfirmedOnline(net) {
        var optimistic := s.tasks + [Task(TempId(now), Trim(input), false, true)];
        assert r.tasks == ReplaceFirst(optimistic, TempId(now), ConfirmedTask(Trim(input), TempId(now), net.outcome.body, now));
        forall j | 0 <= j < |r.tasks| && r.tasks[j].temp
          ensures IsTempId(r.tasks[j].id)
        {
          assert r.tasks[j] == optimistic[j];
        }
      }
    }
  }

  lemma OnTogglePreservesValid(s: State, id: string, completed: bool, net: Connectivity)
    requires Valid(s)
    ensures Valid(OnToggleComplete(s, id, completed, net))
  {
    var r := OnToggleComplete(s, id, completed, net);
    if HasId(s.tasks, id) {
      var i := FindIndex(s.tasks, id);
      assert r.tasks[i].id == s.tasks[i].id && r.tasks[i].temp == s.tasks[i].temp;
    }
  }

  lemma OnDeletePreservesValid(s: State, id: string, net: Connectivity)
    requires Valid(s)
    ensures Valid(OnDelete(s, id, net))
  {
    var r := OnDelete(s, id, net);
    forall j | 0 <= j < |r.tasks| && r.tasks[j].temp
      ensures IsTempId(r.tasks[j].id)
    {
      assert r.tasks[j] in s.tasks;
    }
  }

  lemma FinishEditPreservesValid(s: State, id: string, input: string, outcome: Outcome)
    requires Valid(s)
    ensures Valid(FinishEdit(s, id, input, outcome))
  {
    if Trim(input) != "" && HasId(s.tasks, id) {
      TrimmedIsTitle(input);
    }
  }

  /** A reconciliation pass keeps the invariant: it only drops ops and only
      puts normalised records into the list. */
  lemma SyncPreservesValid(s: State, outcomes: seq<Outcome>, now: nat)
    requires Valid(s) && |outcomes| == |s.pending|
    ensures var r := SyncPending(s.tasks, s.pending, outcomes, now);
            Valid(State(r.tasks, r.remaining))
  {
    if |s.pending| > 0 {
      var r := Pass(s.tasks, s.pending, outcomes, now);
      var idx := RemainingIsFailedSubsequence(s.tasks, s.pending, outcomes, now);
      PassTasksOrigin(s.tasks, s.pending, outcomes, now);
      forall k | 0 <= k < |r.remaining|
        ensures WellFormedOp(r.remaining[k])
      {
        assert r.remaining[k] == s.pending[idx[k]];
      }
    }
  }

  // ---------------------------------------------------------------------
  // Scenarios across an action and a later reconciliation pass
  // ---------------------------------------------------------------------

  /** A task added offline shows up at once under a temporary id; the next
      pass whose request succeeds swaps in the normalised server record,
      drains the queue and leaves exactly one entry for the task. A falsy
      body keeps the temporary id until a later `fetchTasks` replaces the
      list. */
  lemma AddOfflineThenSync(s: State, input: string, now: nat, body: Value, later: nat)
    requires Trim(input) != "" && s.pending == [] && !HasId(s.tasks, TempId(now))
    ensures var s1 := OnAdd(s, input, now, Offline);
            var r := SyncPending(s1.tasks, s1.pending, [Succeeded(body)], later);
            && s1.tasks[|s.tasks|].id == TempId(now)
            && s1.pending == [AddOp(Trim(input), TempId(now))]
            && r.remaining == []
            && r.tasks == s.tasks + [ConfirmedTask(Trim(input), TempId(now), body, later)]
            && (Truthy(body) ==> r.tasks[|s.tasks|] == NormalizeTask(body, later))
            && (!Nullish(Get(body, "id")) ==> r.tasks[|s.tasks|].id == ToStr(Get(body, "id")))
            && (!Truthy(body) ==> r.tasks[|s.tasks|] == Task(TempId(now), Trim(input), false, false))
  {
    var s1 := OnAdd(s, input, now, Offline);
    var op := AddOp(Trim(input), TempId(now));
    FindIndexAppend(s.tasks, Task(TempId(now), Trim(input), false, true), TempId(now));
    var t1 := ReplayTasks(s1.tasks, op, Succeeded(body), later);
    assert t1 == s.tasks + [ConfirmedTask(Trim(input), TempId(now), body, later)];
    assert Pass(s1.tasks, [op], [Succeeded(body)], later) == SyncResult(t1, [], [op]);
  }

  /** A task deleted offline disappears at once and one `delete` is queued;
      the next pass whose request succeeds drains the queue without bringing
      the task back. */
  lemma DeleteOfflineThenSync(s: State, id: string, body: Value, later: nat)
    requires HasId(s.tasks, id) && s.pending == []
    ensures var s1 := OnDelete(s, id, Offline);
            var r := SyncPending(s1.tasks, s1.pending, [Succeeded(body)], later);
            && !HasId(s1.tasks, id)
            && s1.pending == [DeleteOp(id)]
            && r.remaining == []
            && r.tasks == s1.tasks
  {
    var s1 := OnDelete(s, id, Offline);
    assert Pass(s1.tasks, [DeleteOp(id)], [Succeeded(body)], later) == SyncResult(s1.tasks, [], [DeleteOp(id)]);
  }

  /** An edit the server rejected is rolled back locally but queued; when the
      queued update later succeeds the list still shows the old title, since
      a successful `update` replay never touches the list. */
  lemma EditFailureThenSync(s: State, id: string, input: string, body: Value, later: nat)
    requires Trim(input) != "" && HasId(s.tasks, id) && s.pending == []
    ensures var s1 := FinishEdit(s, id, input, Failed);
            var r := SyncPending(s1.tasks, s1.pending, [Succeeded(body)], later);
            && s1.pending == [UpdateOp(id, TitlePatch(Trim(input)))]
            && r.sent == s1.pending
            && r.remaining == []
            && r.tasks == s.tasks
  {
    var s1 := FinishEdit(s, id, input, Failed);
    var op := UpdateOp(id, TitlePatch(Trim(input)));
    assert Pass(s1.tasks, [op], [Succeeded(body)], later) == SyncResult(s1.tasks, [], [op]);
  }
}

=== FILE: json.dfy ===
/**
 This module models the loosely-typed JavaScript values the to-do client reads
 back from local storage and from server responses, together with the three
 coercions the client applies to them: nullish coalescing (`??`), truthiness
 (`!x`, `x || y`, `Boolean(x)`) and string conversion (`String(x)`, `x + ''`).

 Numbers are modelled as integers only: the client only ever stores
 millisecond timestamps and integer ids, so fractions, NaN and exponent
 notation are not represented.
 */
module Json {

  /** A value that may be missing: an absent or unreadable storage slot. */
  datatype Option<+T> = None | Some(value: T)

  /** A value produced by `JSON.parse`, or `undefined` for a missing property. */
  datatype Value =
    | Undefined
    | Null
    | Bool(b: bool)
    | Num(n: int)
    | Str(s: string)
    | Arr(items: seq<Value>)
    | Obj(fields: map<string, Value>)

  /** Property access `v.key`: only objects carry the keys the client reads;
      every other value yields `undefined` for them. */
  function Get(v: Value, key: string): Value
  {
    if v.Obj? && key in v.fields then v.fields[key] else Undefined
  }

  /** The values `??` skips over. */
  predicate Nullish(v: Value)
  {
    v.Undefined? || v.Null?
  }

  /** `a ?? b` */
  function Coalesce(a: Value, b: Value): Value
  {
    if Nullish(a) then b else a
  }

  /** JavaScript truthiness, as used by `!x`, `x || y` and `Boolean(x)`. */
  predicate Truthy(v: Value)
  {
    match v
    case Undefined => false
    case Null => false
    case Bool(b) => b
    case Num(n) => n != 0
    case Str(s) => s != ""
    case Arr(_) => true
    case Obj(_) => true
  }

  /** `a || b`: the first operand when it is truthy, else the second. */
  function Or(a: Value, b: Value): (r: Value)
    ensures Truthy(r) <==> Truthy(a) || Truthy(b)
    ensures Truthy(a) ==> r == a
    ensures !Truthy(a) ==> r == b
  {
    if Truthy(a) then a else b
  }

  predicate IsDigit(c: char)
  {
    '0' <= c <= '9'
  }

  function DigitChar(d: nat): (c: char)
    requires d < 10
    ensures IsDigit(c)
  {
    "0123456789"[d]
  }

  function DigitValue(c: char): (d: nat)
    requires IsDigit(c)
    ensures d < 10 && DigitChar(d) == c
  {
    (c as int - '0' as int) as nat
  }

  /** Decimal rendering of a non-negative integer, as `String(n)` and
      template literals produce it for a safe integer. */
  function NatToString(n: nat): (r: string)
    ensures |r| >= 1
    ensures forall i :: 0 <= i < |r| ==> IsDigit(r[i])
    ensures r[0] == '0' ==> n == 0
    decreases n
  {
    if n < 10 then [DigitChar(n)] else NatToString(n / 10) + [DigitChar(n % 10)]
  }

  /** The number a string of decimal digits denotes. */
  function DigitsValue(s: string): nat
    requires forall i :: 0 <= i < |s| ==> IsDigit(s[i])
    decreases |s|
  {
    if |s| == 0 then 0 else 10 * DigitsValue(s[..|s| - 1]) + DigitValue(s[|s| - 1])
  }

  /** Reading back a decimal rendering yields the number rendered: two
      distinct clock readings never render to the same text. */
  lemma {:induction false} NatToStringInjective(n: nat)
    ensures DigitsValue(NatToString(n)) == n
    decreases n
  {
    if n >= 10 {
      var prefix := NatToString(n / 10);
      var s := prefix + [DigitChar(n % 10)];
      assert s[..|s| - 1] == prefix;
      NatToStringInjective(n / 10);
    }
  }

  function IntToString(n: int): string
  {
    if n < 0 then "-" + NatToString(-n) else NatToString(n)
  }

  /** `String(v)`. Arrays render as their elements joined by commas, with
      `null` and `undefined` elements rendered empty (`Array.prototype.join`). */
  function ToStr(v: Value): string
    decreases v, 1, 0
  {
    match v
    case Undefined => "undefined"
    case Null => "null"
    case Bool(b) => if b then "true" else "false"
    case Num(n) => IntToString(n)
    case Str(s) => s
    case Arr(items) => JoinFrom(v, 0)
    case Obj(_) => "[object Object]"
  }

  /** The comma-joined rendering of the elements of array `v` from index `i` on. */
  function JoinFrom(v: Value, i: nat): string
    requires v.Arr? && i <= |v.items|
    decreases v, 0, |v.items| - i
  {
    if i == |v.items| then ""
    else
      var e := v.items[i];
      var piece := if Nullish(e) then "" else ToStr(e);
      if i + 1 == |v.items| then piece else piece + "," + JoinFrom(v, i + 1)
  }
}

=== FILE: selections.dfy ===
/**
 Order-preserving selections: the vocabulary for "keeps exactly these
 elements, in their original relative order", used for the pending queue the
 reconciler keeps and for the task list a delete filters.
 */
module Selections {

  /** `idx` lists, in strictly increasing order, the positions of `s` whose
      elements make up `r`. */
  ghost predicate Selects<T>(r: seq<T>, s: seq<T>, idx: seq<int>)
  {
    && |idx| == |r|
    && (forall k :: 0 <= k < |idx| ==> 0 <= idx[k] < |s| && r[k] == s[idx[k]])
    && (forall k, l :: 0 <= k < l < |idx| ==> idx[k] < idx[l])
  }

  /** The positions of a selection, re-based after one element is put in front. */
  function Shift(idx: seq<int>): (r: seq<int>)
    ensures |r| == |idx|
    ensures forall k :: 0 <= k < |idx| ==> r[k] == idx[k] + 1
  {
    seq(|idx|, k requires 0 <= k < |idx| => idx[k] + 1)
  }

  lemma InShift(idx: seq<int>, i: int)
    ensures i in Shift(idx) <==> i - 1 in idx
  {
    var r := Shift(idx);
    if i in r {
      var k :| 0 <= k < |r| && r[k] == i;
      assert idx[k] == i - 1;
    }
    if i - 1 in idx {
      var k :| 0 <= k < |idx| && idx[k] == i - 1;
      assert r[k] == i;
    }
  }

  /** Putting an element in front of the selected-from sequence without selecting it. */
  lemma SelectsSkip<T>(r: seq<T>, x: T, s: seq<T>, idx: seq<int>)
    requires Selects(r, s, idx)
    ensures Selects(r, [x] + s, Shift(idx))
  {
    var s' := [x] + s;
    forall k | 0 <= k < |idx|
      ensures r[k] == s'[Shift(idx)[k]]
    {
      assert s'[idx[k] + 1] == s[idx[k]];
    }
  }

  /** Putting an element in front of both the selected-from sequence and the selection. */
  lemma SelectsKeep<T>(r: seq<T>, x: T, s: seq<T>, idx: seq<int>)
    requires Selects(r, s, idx)
    ensures Selects([x] + r, [x] + s, [0] + Shift(idx))
  {
    var s' := [x] + s;
    var r' := [x] + r;
    var idx' := [0] + Shift(idx);
    forall k | 0 <= k < |idx'|
      ensures 0 <= idx'[k] < |s'| && r'[k] == s'[idx'[k]]
    {
      if k > 0 {
        assert idx'[k] == idx[k - 1] + 1;
        assert s'[idx[k - 1] + 1] == s[idx[k - 1]];
      }
    }
    forall k, l | 0 <= k < l < |idx'|
      ensures idx'[k] < idx'[l]
    {
      if k > 0 {
        assert idx'[k] == idx[k - 1] + 1 && idx'[l] == idx[l - 1] + 1;
      } else {
        assert idx'[l] == idx[l - 1] + 1;
      }
    }
  }
}

=== FILE: sync.dfy ===
/**
 The pending-operation log and the reconciler (`syncPending`) that replays it.

 Each queued operation is replayed once, in queue order, against the server.
 The server's answer to each request is an abstract outcome supplied by the
 caller, one per queue entry in queue order (the outcome paired with an
 unrecognised entry is ignored, since no request is made for it), so a pass
 is a fold over the queue.
 */
module Reconciler {
  import opened Json
  import opened Selections
  import opened TaskModel

  /** The body of a queued `update`: the one field the action changed. */
  datatype Payload = TitlePatch(title: string) | CompletedPatch(completed: bool)

  /** A pending operation as the log stores it. `Unrecognized` stands for an
      entry whose `type` is none of the three, which the log can only hold if
      its storage slot was written by something else. */
  datatype Op =
    | AddOp(title: string, tempId: string)
    | UpdateOp(id: string, payload: Payload)
    | DeleteOp(id: string)
    | Unrecognized

  /** The result of one request: `Failed` covers a network-level failure, a
      non-2xx status and an exception; `Succeeded` carries the decoded body
      as `safeParseJson` yields it: the parsed JSON, the raw text when the body is
      not JSON, or `Null` when reading the body throws. */
  datatype Outcome = Failed | Succeeded(body: Value)

  /** What one pass produces: the task list, the new queue, and the
      operations it sent to the server, in the order it sent them. */
  datatype SyncResult = SyncResult(tasks: seq<Task>, remaining: seq<Op>, sent: seq<Op>)

  /** The record a successful `add` is normalised from: the decoded body, or
      the op's own fields when the body is falsy. */
  function AddedRecord(title: string, tempId: string, body: Value): Value
  {
    Or(body, Obj(map["id" := Str(tempId), "title" := Str(title), "completed" := Bool(false)]))
  }

  /** The task a successful `add` puts in place of its temporary entry. */
  function ConfirmedTask(title: string, tempId: string, body: Value, now: nat): (t: Task)
    ensures !t.temp
    ensures Truthy(body) ==> t == NormalizeTask(body, now)
    ensures Get(body, "id").Str? ==> t.id == Get(body, "id").s
    ensures !Truthy(body) ==> t == Task(tempId, title, false, false)
  {
    var raw := AddedRecord(title, tempId, body);
    assert !Truthy(body) ==>
      Get(raw, "id") == Str(tempId) && Get(raw, "title") == Str(title) && Get(raw, "completed") == Bool(false);
    NormalizeTask(raw, now)
  }

  /** Whether an op stays queued after its request: every recognised op
      whose request failed is pushed onto `remaining`. */
  predicate Retained(op: Op, outcome: Outcome)
  {
    op != Unrecognized && outcome.Failed?
  }

  /** A successful `add`, the only replay that touches the task list. */
  predicate ConfirmsAdd(op: Op, outcome: Outcome)
  {
    op.AddOp? && outcome.Succeeded?
  }

  /** The task list after one iteration of the replay loop. */
  function ReplayTasks(ts: seq<Task>, op: Op, outcome: Outcome, now: nat): (r: seq<Task>)
    ensures |r| == |ts|
    ensures !ConfirmsAdd(op, outcome) ==> r == ts
    ensures ConfirmsAdd(op, outcome) && !HasId(ts, op.tempId) ==> r == ts
    ensures ConfirmsAdd(op, outcome) && HasId(ts, op.tempId) ==>
              r[FindIndex(ts, op.tempId)] == ConfirmedTask(op.title, op.tempId, outcome.body, now)
    ensures forall j :: 0 <= j < |ts| && r[j] != ts[j] ==> ConfirmsAdd(op, outcome) && j == FindIndex(ts, op.tempId)
  {
    match op
    case AddOp(title, tempId) =>
      if outcome.Succeeded? then ReplaceFirst(ts, tempId, ConfirmedTask(title, tempId, outcome.body, now)) else ts
    case _ => ts
  }

  /** The replay loop over `pending` from its first entry, with `outcomes[i]`
      the server's answer to `pending[i]`. */
  function Pass(ts: seq<Task>, pending: seq<Op>, outcomes: seq<Outcome>, now: nat): (r: SyncResult)
    requires |outcomes| == |pending|
    ensures |r.tasks| == |ts|
    ensures |r.remaining| <= |r.sent| <= |pending|
    decreases |pending|
  {
    if |pending| == 0 then SyncResult(ts, [], [])
    else
      var rest := Pass(ReplayTasks(ts, pending[0], outcomes[0], now), pending[1..], outcomes[1..], now);
      SyncResult(
        rest.tasks,
        (if Retained(pending[0], outcomes[0]) then [pending[0]] else []) + rest.remaining,
        (if pending[0] != Unrecognized then [pending[0]] else []) + rest.sent)
  }

  /** `syncPending()`: nothing at all happens on an empty queue; otherwise one
      pass over the whole queue. */
  function SyncPending(ts: seq<Task>, pending: seq<Op>, outcomes: seq<Outcome>, now: nat): (r: SyncResult)
    requires |outcomes| == |pending|
    ensures pending == [] ==> r == SyncResult(ts, [], [])
    ensures |r.tasks| == |ts|
    ensures |r.remaining| <= |pending|
  {
    if |pending| == 0 then SyncResult(ts, pending, []) else Pass(ts, pending, outcomes, now)
  }

  /** If every request fails, the queue comes back unchanged. */
  lemma {:induction false} AllFailedKeepsQueue(ts: seq<Task>, pending: seq<Op>, outcomes: seq<Outcome>, now: nat)
    requires |outcomes| == |pending|
    requires forall i :: 0 <= i < |pending| ==> pending[i] != Unrecognized && outcomes[i].Failed?
    ensures Pass(ts, pending, outcomes, now) == SyncResult(ts, pending, pending)
    ensures SyncPending(ts, pending, outcomes, now) == SyncResult(ts, pending, pending)
    decreases |pending|
  {
    if |pending| > 0 {
      assert ReplayTasks(ts, pending[0], outcomes[0], now) == ts;
      assert Retained(pending[0], outcomes[0]);
      AllFailedKeepsQueue(ts, pending[1..], outcomes[1..], now);
      assert pending == [pending[0]] + pending[1..];
    }
  }

  /** If every request succeeds, the queue drains completely. */
  lemma {:induction false} AllSucceededDrainsQueue(ts: seq<Task>, pending: seq<Op>, outcomes: seq<Outcome>, now: nat)
    requires |outcomes| == |pending|
    requires forall i :: 0 <= i < |pending| ==> outcomes[i].Succeeded?
    ensures Pass(ts, pending, outcomes, now).remaining == []
    ensures SyncPending(ts, pending, outcomes, now).remaining == []
    decreases |pending|
  {
    if |pending| > 0 {
      var ts1 := ReplayTasks(ts, pending[0], outcomes[0], now);
      assert !Retained(pending[0], outcomes[0]);
      AllSucceededDrainsQueue(ts1, pending[1..], outcomes[1..], now);
    }
  }

  /** Without a successful `add`, a pass leaves the task list alone. */
  lemma {:induction false} TasksUnchangedWithoutConfirmedAdd(ts: seq<Task>, pending: seq<Op>, outcomes: seq<Outcome>, now: nat)
    requires |outcomes| == |pending|
    requires forall i :: 0 <= i < |pending| ==> !ConfirmsAdd(pending[i], outcomes[i])
    ensures Pass(ts, pending, outcomes, now).tasks == ts
    ensures SyncPending(ts, pending, outcomes, now).tasks == ts
    decreases |pending|
  {
    if |pending| > 0 {
      assert ReplayTasks(ts, pending[0], outcomes[0], now) == ts;
      TasksUnchangedWithoutConfirmedAdd(ts, pending[1..], outcomes[1..], now);
    }
  }

  /** The new queue is exactly the recognised operations whose request
      failed, in their original relative order. */
  lemma {:induction false} RemainingIsFailedSubsequence(ts: seq<Task>, pending: seq<Op>, outcomes: seq<Outcome>, now: nat)
    returns (idx: seq<int>)
    requires |outcomes| == |pending|
    ensures Selects(Pass(ts, pending, outcomes, now).remaining, pending, idx)
    ensures forall i :: 0 <= i < |pending| ==> (i in idx <==> pending[i] != Unrecognized && outcomes[i].Failed?)
    decreases |pending|
  {
    if |pending| == 0 {
      idx := [];
    } else {
      var ts1 := ReplayTasks(ts, pending[0], outcomes[0], now);
      var keep := Retained(pending[0], outcomes[0]);
      var restIdx := RemainingIsFailedSubsequence(ts1, pending[1..], outcomes[1..], now);
      var restRemaining := Pass(ts1, pending[1..], outcomes[1..], now).remaining;
      assert pending == [pending[0]] + pending[1..];
      if keep {
        SelectsKeep(restRemaining, pending[0], pending[1..], restIdx);
        idx := [0] + Shift(restIdx);
      } else {
        SelectsSkip(restRemaining, pending[0], pending[1..], restIdx);
        idx := Shift(restIdx);
      }
      forall i | 0 <= i < |pending|
        ensures i in idx <==> pending[i] != Unrecognized && outcomes[i].Failed?
      {
        InShift(restIdx, i);
        if i > 0 {
          assert pending[i] == pending[1..][i - 1] && outcomes[i] == outcomes[1..][i - 1];
        } else {
          assert 0 !in Shift(restIdx) by { InShift(restIdx, 0); assert -1 !in restIdx; }
        }
      }
    }
  }

  /** The requests are sent once each, strictly in queue order: the sent
      operations are exactly the recognised entries of the queue. */
  lemma {:induction false} SentInQueueOrder(ts: seq<Task>, pending: seq<Op>, outcomes: seq<Outcome>, now: nat)
    returns (idx: seq<int>)
    requires |outcomes| == |pending|
    ensures Selects(Pass(ts, pending, outcomes, now).sent, pending, idx)
    ensures forall i :: 0 <= i < |pending| ==> (i in idx <==> pending[i] != Unrecognized)
    decreases |pending|
  {
    if |pending| == 0 {
      idx := [];
    } else {
      var ts1 := ReplayTasks(ts, pending[0], outcomes[0], now);
      var restIdx := SentInQueueOrder(ts1, pending[1..], outcomes[1..], now);
      var restSent := Pass(ts1, pending[1..], outcomes[1..], now).sent;
      assert pending == [pending[0]] + pending[1..];
      if pending[0] != Unrecognized {
        SelectsKeep(restSent, pending[0], pending[1..], restIdx);
        idx := [0] + Shift(restIdx);
      } else {
        SelectsSkip(restSent, pending[0], pending[1..], restIdx);
        idx := Shift(restIdx);
      }
      forall i | 0 <= i < |pending|
        ensures i in idx <==> pending[i] != Unrecognized
      {
        InShift(restIdx, i);
        if i > 0 {
          assert pending[i] == pending[1..][i - 1];
        } else {
          assert 0 !in Shift(restIdx) by { InShift(restIdx, 0); assert -1 !in restIdx; }
        }
      }
    }
  }

  /** Task `t` is the record the successful `add` `op` put in place of its
      temporary entry. */
  predicate FromConfirmedAdd(t: Task, op: Op, outcome: Outcome, now: nat)
  {
    ConfirmsAdd(op, outcome) && t == ConfirmedTask(op.title, op.tempId, outcome.body, now)
  }

  /** Every task after a pass is either untouched or the normalised server
      record of one successful `add` of the queue: the pass never invents an
      optimistic entry. */
  lemma {:induction false} PassTasksOrigin(ts: seq<Task>, pending: seq<Op>, outcomes: seq<Outcome>, now: nat)
    requires |outcomes| == |pending|
    ensures var r := Pass(ts, pending, outcomes, now);
            forall j :: 0 <= j < |ts| ==>
              || r.tasks[j] == ts[j]
              || exists k :: 0 <= k < |pending| && FromConfirmedAdd(r.tasks[j], pending[k], outcomes[k], now)
    decreases |pending|
  {
    if |pending| > 0 {
      var ts1 := ReplayTasks(ts, pending[0], outcomes[0], now);
      PassTasksOrigin(ts1, pending[1..], outcomes[1..], now);
      var r := Pass(ts, pending, outcomes, now);
      forall j | 0 <= j < |ts|
        ensures || r.tasks[j] == ts[j]
                || exists k :: 0 <= k < |pending| && FromConfirmedAdd(r.tasks[j], pending[k], outcomes[k], now)
      {
        if r.tasks[j] != ts1[j] {
          var k' :| 0 <= k' < |pending[1..]| && FromConfirmedAdd(r.tasks[j], pending[1..][k'], outcomes[1..][k'], now);
          assert FromConfirmedAdd(r.tasks[j], pending[k' + 1], outcomes[k' + 1], now);
        } else if ts1[j] != ts[j] {
          assert ConfirmsAdd(pending[0], outcomes[0]) && j == FindIndex(ts, pending[0].tempId);
          assert FromConfirmedAdd(r.tasks[j], pending[0], outcomes[0], now);
        }
      }
    }
  }

  /** Queue order: with `[a, b, c]` queued, `b` failing and `a` and `c`
      succeeding, the queue afterwards is `[b]`. */
  lemma OrderPreservedExample(ts: seq<Task>, a: Op, b: Op, c: Op, okA: Value, okC: Value, now: nat)
    requires a != Unrecognized && b != Unrecognized && c != Unrecognized
    ensures SyncPending(ts, [a, b, c], [Succeeded(okA), Failed, Succeeded(okC)], now).remaining == [b]
  {
    var pending := [a, b, c];
    var outcomes := [Succeeded(okA), Failed, Succeeded(okC)];
    assert pending[1..] == [b, c] && outcomes[1..] == [Failed, Succeeded(okC)];
    assert [b, c][1..] == [c] && [Failed, Succeeded(okC)][1..] == [Succeeded(okC)];
    var t1 := ReplayTasks(ts, a, Succeeded(okA), now);
    var t2 := ReplayTasks(t1, b, Failed, now);
    var t3 := ReplayTasks(t2, c, Succeeded(okC), now);
    assert Pass(t3, [], [], now).remaining == [];
    assert Pass(t2, [c], [Succeeded(okC)], now).remaining == [];
    assert Pass(t1, [b, c], [Failed, Succeeded(okC)], now).remaining == [b];
  }
}

=== FILE: tasks.dfy ===
/**
 Tasks as the client holds them in memory, the defensive normalisation it
 applies to every record that comes from storage or from the server, the JSON
 shape `saveLocal` writes, the response-shape extraction of `fetchTasks`, and
 the list operations (`findIndex`, replace-at-index, `filter`) the actions
 and the reconciler are built from.
 */
module TaskModel {
  import opened Json
  import opened Selections

  /** A task. `temp` is the `_temp` flag an optimistic, not yet confirmed
      task carries; normalisation never produces it. */
  datatype Task = Task(id: string, title: string, completed: bool, temp: bool)

  /** `raw.id ?? raw._id ?? raw.uuid ?? raw._key ?? Date.now()` */
  function RawId(raw: Value, now: nat): Value
  {
    Coalesce(Get(raw, "id"), Coalesce(Get(raw, "_id"),
      Coalesce(Get(raw, "uuid"), Coalesce(Get(raw, "_key"), Num(now)))))
  }

  /** `raw.title ?? raw.task ?? raw.description ?? ''` */
  function RawTitle(raw: Value): Value
  {
    Coalesce(Get(raw, "title"), Coalesce(Get(raw, "task"), Coalesce(Get(raw, "description"), Str(""))))
  }

  /** `normalizeTask(raw)`, with `now` the reading of `Date.now()` it makes
      when the record has no usable id. */
  function NormalizeTask(raw: Value, now: nat): (t: Task)
    ensures !t.temp
    ensures !Truthy(raw) ==> t == Task(NatToString(now), "", false, false)
    ensures Get(raw, "id").Str? ==> t.id == Get(raw, "id").s
    ensures Get(raw, "title").Str? ==> t.title == Get(raw, "title").s
    ensures Get(raw, "completed").Bool? ==> t.completed == Get(raw, "completed").b
    ensures t.completed <==> Truthy(Get(raw, "completed"))
    // the id is the text of the first of `id`, `_id`, `uuid`, `_key` that is
    // neither null nor undefined
    ensures !Nullish(Get(raw, "id")) ==> t.id == ToStr(Get(raw, "id"))
    ensures Get(raw, "id").Num? ==> t.id == IntToString(Get(raw, "id").n)
    ensures Nullish(Get(raw, "id")) && !Nullish(Get(raw, "_id")) ==> t.id == ToStr(Get(raw, "_id"))
    ensures (Nullish(Get(raw, "id")) && Nullish(Get(raw, "_id")) && !Nullish(Get(raw, "uuid")))
            ==> t.id == ToStr(Get(raw, "uuid"))
    ensures (Nullish(Get(raw, "id")) && Nullish(Get(raw, "_id")) && Nullish(Get(raw, "uuid"))
             && !Nullish(Get(raw, "_key"))) ==> t.id == ToStr(Get(raw, "_key"))
    ensures (Nullish(Get(raw, "id")) && Nullish(Get(raw, "_id")) && Nullish(Get(raw, "uuid"))
             && Nullish(Get(raw, "_key"))) ==> t.id == NatToString(now)
    ensures (Nullish(Get(raw, "title")) && Nullish(Get(raw, "task")) && Nullish(Get(raw, "description")))
            ==> t.title == ""
    // the title is the text of the first of `title`, `task`, `description`
    // that is neither null nor undefined
    ensures !Nullish(Get(raw, "title")) ==> t.title == ToStr(Get(raw, "title"))
    ensures Nullish(Get(raw, "title")) && !Nullish(Get(raw, "task")) ==> t.title == ToStr(Get(raw, "task"))
    ensures (Nullish(Get(raw, "title")) && Nullish(Get(raw, "task")) && !Nullish(Get(raw, "description")))
            ==> t.title == ToStr(Get(raw, "description"))
    ensures Nullish(Get(raw, "completed")) ==> !t.completed
  {
    if !Truthy(raw) then Task(NatToString(now), "", false, false)
    else Task(ToStr(RawId(raw, now)), ToStr(RawTitle(raw)), Truthy(Get(raw, "completed")), false)
  }

  /** The record `JSON.stringify` writes for a task in `saveLocal`. */
  function EncodeTask(t: Task): Value
  {
    var base := map["id" := Str(t.id), "title" := Str(t.title), "completed" := Bool(t.completed)];
    Obj(if t.temp then base["_temp" := Bool(true)] else base)
  }

  /** A task as it comes back from storage: everything but the `_temp` flag. */
  function StripTemp(t: Task): Task
  {
    t.(temp := false)
  }

  function StripAll(ts: seq<Task>): (r: seq<Task>)
    ensures |r| == |ts|
    ensures forall i :: 0 <= i < |ts| ==> r[i] == StripTemp(ts[i])
  {
    seq(|ts|, i requires 0 <= i < |ts| => StripTemp(ts[i]))
  }

  /** A stored task record normalises back to the task minus its flag,
      whatever the clock reads. */
  lemma NormalizeEncoded(t: Task, now: nat)
    ensures NormalizeTask(EncodeTask(t), now) == StripTemp(t)
  {
    var raw := EncodeTask(t);
    assert Get(raw, "id") == Str(t.id);
    assert Get(raw, "title") == Str(t.title);
    assert Get(raw, "completed") == Bool(t.completed);
  }

  /** `normalizeTask` is idempotent: a normalised record, once stored and
      normalised again, is unchanged. */
  lemma NormalizeIdempotent(raw: Value, now: nat, later: nat)
    ensures NormalizeTask(EncodeTask(NormalizeTask(raw, now)), later) == NormalizeTask(raw, now)
  {
    NormalizeEncoded(NormalizeTask(raw, now), later);
  }

  /** `normalizeTask` applied to every element, as `Array.prototype.map` does. */
  function NormalizeAll(items: seq<Value>, now: nat): (r: seq<Task>)
    ensures |r| == |items|
    ensures forall i :: 0 <= i < |items| ==> r[i] == NormalizeTask(items[i], now)
  {
    seq(|items|, i requires 0 <= i < |items| => NormalizeTask(items[i], now))
  }

  /** The value `saveLocal` puts into the task slot. */
  function SaveLocal(ts: seq<Task>): (v: Value)
    ensures v.Arr? && |v.items| == |ts|
  {
    Arr(seq(|ts|, i requires 0 <= i < |ts| => EncodeTask(ts[i])))
  }

  /** `loadLocal()`. `slot` is the parsed content of the task slot; `None`
      stands for a missing or empty slot and for text `JSON.parse` rejects,
      all of which `loadLocal` turns into the empty list. */
  function LoadLocal(slot: Option<Value>, now: nat): (r: seq<Task>)
    ensures forall i :: 0 <= i < |r| ==> !r[i].temp
    ensures slot.None? ==> r == []
    ensures slot.Some? && !slot.value.Arr? ==> r == []
    ensures slot.Some? && slot.value.Arr? ==> |r| == |slot.value.items|
    ensures slot.Some? && slot.value.Arr? ==>
              forall i :: 0 <= i < |r| ==> r[i] == NormalizeTask(slot.value.items[i], now)
  {
    match slot
    case None => []
    case Some(v) => if v.Arr? then NormalizeAll(v.items, now) else []
  }

  /** Loading what `saveLocal` stored gives back the tasks minus their `_temp`
      flags. */
  lemma LoadAfterSave(ts: seq<Task>, now: nat)
    ensures LoadLocal(Some(SaveLocal(ts)), now) == StripAll(ts)
  {
    var r := LoadLocal(Some(SaveLocal(ts)), now);
    forall i | 0 <= i < |ts|
      ensures r[i] == StripTemp(ts[i])
    {
      NormalizeEncoded(ts[i], now);
    }
  }

  /** For a list without optimistic entries the storage round trip is exact. */
  lemma LoadAfterSaveExact(ts: seq<Task>, now: nat)
    requires forall i :: 0 <= i < |ts| ==> !ts[i].temp
    ensures LoadLocal(Some(SaveLocal(ts)), now) == ts
  {
    LoadAfterSave(ts, now);
    assert StripAll(ts) == ts;
  }

  // ---------------------------------------------------------------------
  // Response shape of the task list (fetchTasks)
  // ---------------------------------------------------------------------

  /** The task array `fetchTasks` takes from a decoded response body: the
      body itself when it is an array, else its `tasks` array, else (for an
      object) its `data` array, else nothing. `None` is the `TypeError`
      `fetchTasks` raises by reading `data.tasks` when the body is `null`
      (a literal `null` body, or what `safeParseJson` returns when reading
      the body throws), which sends it to its fallback path. */
  function ExtractTaskArray(data: Value): (r: Option<seq<Value>>)
    ensures r.None? <==> Nullish(data)
    ensures data.Arr? ==> r == Some(data.items)
    ensures !data.Arr? && Get(data, "tasks").Arr? ==> r == Some(Get(data, "tasks").items)
    ensures !Get(data, "tasks").Arr? && Get(data, "data").Arr? ==> r == Some(Get(data, "data").items)
    ensures (!data.Arr? && !Nullish(data) && !Get(data, "tasks").Arr? && !Get(data, "data").Arr?)
            ==> r == Some([])
  {
    if data.Arr? then Some(data.items)
    else if Nullish(data) then None
    else if Get(data, "tasks").Arr? then Some(Get(data, "tasks").items)
    else if Truthy(data) && data.Obj? then
      // `fetchTasks` tests `data.tasks` once more here; that test can no
      // longer succeed, so it is left out
      if Get(data, "data").Arr? then Some(Get(data, "data").items) else Some([])
    else Some([])
  }

  /** `tasks = taskArray.map(normalizeTask)` after the extraction. */
  function TasksFromResponse(data: Value, now: nat): (r: Option<seq<Task>>)
    ensures r.None? <==> Nullish(data)
    ensures r.Some? ==> forall i :: 0 <= i < |r.value| ==> !r.value[i].temp
    ensures ExtractTaskArray(data).Some? ==>
              && r.Some?
              && |r.value| == |ExtractTaskArray(data).value|
              && forall i :: 0 <= i < |r.value| ==> r.value[i] == NormalizeTask(ExtractTaskArray(data).value[i], now)
  {
    match ExtractTaskArray(data)
    case None => None
    case Some(items) => Some(NormalizeAll(items, now))
  }

  /** A server that answers with the same array in any of the three accepted
      shapes yields the same tasks: bare, under `tasks`, or under `data`.
      Each element is normalised on its own, whatever keys it uses. */
  lemma ResponseShapesAgree(items: seq<Value>, now: nat)
    ensures var expected := Some(NormalizeAll(items, now));
            && TasksFromResponse(Arr(items), now) == expected
            && TasksFromResponse(Obj(map["tasks" := Arr(items)]), now) == expected
            && TasksFromResponse(Obj(map["data" := Arr(items)]), now) == expected
  {
    assert Get(Obj(map["tasks" := Arr(items)]), "tasks") == Arr(items);
    assert Get(Obj(map["data" := Arr(items)]), "data") == Arr(items);
    assert Get(Obj(map["data" := Arr(items)]), "tasks") == Undefined;
  }

  /** A list the client itself stored, served back in any of the three
      shapes, yields the stored tasks minus their `_temp` flags. */
  lemma SavedListShapesAgree(ts: seq<Task>, now: nat)
    ensures var list := SaveLocal(ts);
            && TasksFromResponse(list, now) == Some(StripAll(ts))
            && TasksFromResponse(Obj(map["tasks" := list]), now) == Some(StripAll(ts))
            && TasksFromResponse(Obj(map["data" := list]), now) == Some(StripAll(ts))
  {
    LoadAfterSave(ts, now);
    ResponseShapesAgree(SaveLocal(ts).items, now);
  }

  // ---------------------------------------------------------------------
  // List operations
  // ---------------------------------------------------------------------

  predicate HasId(ts: seq<Task>, id: string)
  {
    exists j :: 0 <= j < |ts| && ts[j].id == id
  }

  /** `tasks.findIndex(t => t.id === id)`: the first position holding `id`,
      or -1. */
  function FindIndex(ts: seq<Task>, id: string): (r: int)
    ensures -1 <= r < |ts|
    ensures r == -1 <==> !HasId(ts, id)
    ensures 0 <= r ==> ts[r].id == id && forall j :: 0 <= j < r ==> ts[j].id != id
    decreases |ts|
  {
    if |ts| == 0 then -1
    else if ts[0].id == id then 0
    else
      var k := FindIndex(ts[1..], id);
      if k == -1 then -1 else k + 1
  }

  /** Appending a task does not move the first match of an id that was
      already present, and makes the new task the first match otherwise. */
  lemma FindIndexAppend(ts: seq<Task>, t: Task, id: string)
    ensures HasId(ts, id) ==> FindIndex(ts + [t], id) == FindIndex(ts, id)
    ensures !HasId(ts, id) && t.id == id ==> FindIndex(ts + [t], id) == |ts|
  {
    var ext := ts + [t];
    var k := FindIndex(ext, id);
    if HasId(ts, id) {
      var i := FindIndex(ts, id);
      assert ext[i] == ts[i];
      assert HasId(ext, id);
    } else if t.id == id {
      assert ext[|ts|].id == id;
      assert HasId(ext, id);
      assert forall j :: 0 <= j < |ts| ==> ext[j] == ts[j];
    }
  }

  /** `tasks[tasks.findIndex(t => t.id === id)] = t` when that index exists. */
  function ReplaceFirst(ts: seq<Task>, id: string, t: Task): (r: seq<Task>)
    ensures |r| == |ts|
    ensures !HasId(ts, id) ==> r == ts
    ensures HasId(ts, id) ==> r[FindIndex(ts, id)] == t
    ensures forall j :: 0 <= j < |ts| && j != FindIndex(ts, id) ==> r[j] == ts[j]
  {
    var i := FindIndex(ts, id);
    if i == -1 then ts else ts[i := t]
  }

  /** `tasks.filter(t => t.id !== id)` */
  function RemoveAll(ts: seq<Task>, id: string): (r: seq<Task>)
    ensures forall j :: 0 <= j < |r| ==> r[j].id != id
    ensures forall t :: t in ts && t.id != id ==> t in r
    ensures forall t :: t in r ==> t in ts
    ensures |r| <= |ts|
    ensures !HasId(ts, id) ==> r == ts
    decreases |ts|
  {
    if |ts| == 0 then []
    else if ts[0].id == id then RemoveAll(ts[1..], id)
    else [ts[0]] + RemoveAll(ts[1..], id)
  }

  /** The filter keeps exactly the tasks whose id differs, in their original
      relative order. */
  lemma {:induction false} RemoveAllKeepsOthersInOrder(ts: seq<Task>, id: string) returns (idx: seq<int>)
    ensures Selects(RemoveAll(ts, id), ts, idx)
    ensures forall i :: 0 <= i < |ts| ==> (i in idx <==> ts[i].id != id)
    decreases |ts|
  {
    if |ts| == 0 {
      idx := [];
    } else {
      var rest := RemoveAllKeepsOthersInOrder(ts[1..], id);
      assert ts == [ts[0]] + ts[1..];
      if ts[0].id == id {
        SelectsSkip(RemoveAll(ts[1..], id), ts[0], ts[1..], rest);
        idx := Shift(rest);
      } else {
        SelectsKeep(RemoveAll(ts[1..], id), ts[0], ts[1..], rest);
        idx := [0] + Shift(rest);
      }
      forall i | 0 <= i < |ts|
        ensures i in idx <==> ts[i].id != id
      {
        InShift(rest, i);
        if i > 0 {
          assert ts[i] == ts[1..][i - 1];
        } else {
          assert 0 !in Shift(rest) by { InShift(rest, 0); assert -1 !in rest; }
        }
      }
    }
  }
}

=== FILE: text.dfy ===
/**
 The two string helpers the client applies to user-visible text:
 `String.prototype.trim`, which guards every title the user submits, and
 `escapeHtml`, which makes a title safe to splice into markup.
 */
module Text {

  /** The characters `trim` removes: ECMAScript WhiteSpace (tab, vertical tab,
      form feed, space, no-break space, byte order mark and the Unicode space
      separators) and LineTerminator (line feed, carriage return, line and
      paragraph separators). */
  predicate IsWhitespace(c: char)
  {
    || c == '\t' || c == '\n' || c == '\U{000B}' || c == '\U{000C}' || c == '\r'
    || c == ' ' || c == '\U{00A0}' || c == '\U{1680}'
    || ('\U{2000}' <= c <= '\U{200A}')
    || c == '\U{2028}' || c == '\U{2029}' || c == '\U{202F}' || c == '\U{205F}'
    || c == '\U{3000}' || c == '\U{FEFF}'
  }

  predicate AllWhitespace(s: string)
  {
    forall i :: 0 <= i < |s| ==> IsWhitespace(s[i])
  }

  /** Index of the first character `trim` keeps (|s| when there is none). */
  function TrimStart(s: string): (k: nat)
    ensures k <= |s|
    ensures forall i :: 0 <= i < k ==> IsWhitespace(s[i])
    ensures k < |s| ==> !IsWhitespace(s[k])
    decreases |s|
  {
    if |s| == 0 || !IsWhitespace(s[0]) then 0 else 1 + TrimStart(s[1..])
  }

  /** One past the index of the last character `trim` keeps (0 when there is none). */
  function TrimEnd(s: string): (k: nat)
    ensures k <= |s|
    ensures forall i :: k <= i < |s| ==> IsWhitespace(s[i])
    ensures 0 < k ==> !IsWhitespace(s[k - 1])
    decreases |s|
  {
    if |s| == 0 || !IsWhitespace(s[|s| - 1]) then |s| else TrimEnd(s[..|s| - 1])
  }

  lemma TrimBoundsOrdered(s: string)
    ensures TrimStart(s) == |s| || TrimStart(s) < TrimEnd(s)
  {
    var k := TrimStart(s);
    if k < |s| {
      assert !IsWhitespace(s[k]);
    }
  }

  /** `s.trim()`: the longest slice of `s` that neither starts nor ends with
      whitespace; every character cut off is whitespace. */
  function Trim(s: string): (r: string)
    ensures r == "" <==> AllWhitespace(s)
    ensures r != "" ==> !IsWhitespace(r[0]) && !IsWhitespace(r[|r| - 1])
    ensures r != "" ==> r == s[TrimStart(s)..TrimEnd(s)]
    ensures |r| <= |s|
  {
    TrimBoundsOrdered(s);
    if TrimStart(s) == |s| then "" else s[TrimStart(s)..TrimEnd(s)]
  }

  /** Trimming an already trimmed string changes nothing, which is why a
      title that went through `trim` once is stored and queued unchanged. */
  lemma TrimIdempotent(s: string)
    ensures Trim(Trim(s)) == Trim(s)
  {
    var t := Trim(s);
    if t != "" {
      assert TrimStart(t) == 0;
      assert TrimEnd(t) == |t|;
      assert t[0..|t|] == t;
    }
  }

  // ---------------------------------------------------------------------
  // escapeHtml
  // ---------------------------------------------------------------------

  /** The five characters `escapeHtml` rewrites. */
  predicate IsSpecial(c: char)
  {
    c == '&' || c == '<' || c == '>' || c == '"' || c == '\''
  }

  /** The characters that may never appear in escaped output. */
  predicate IsMarkup(c: char)
  {
    c == '<' || c == '>' || c == '"' || c == '\''
  }

  function EscapeChar(c: char): (e: string)
    ensures IsSpecial(c) ==> |e| > 1 && e[0] == '&'
    ensures !IsSpecial(c) ==> e == [c]
  {
    match c
    case '&' => "&amp;"
    case '<' => "&lt;"
    case '>' => "&gt;"
    case '"' => "&quot;"
    case '\'' => "&#39;"
    case _ => [c]
  }

  /** `escapeHtml(str)` on a string: each of the five special characters is
      replaced by its entity and every other character is copied. */
  function EscapeHtml(s: string): (r: string)
    ensures forall i :: 0 <= i < |r| ==> !IsMarkup(r[i])
    ensures |r| >= |s|
    ensures (forall i :: 0 <= i < |s| ==> !IsSpecial(s[i])) ==> r == s
    decreases |s|
  {
    if |s| == 0 then "" else EscapeChar(s[0]) + EscapeHtml(s[1..])
  }

  predicate StartsWith(s: string, p: string)
  {
    |p| <= |s| && s[..|p|] == p
  }

  /** True when an entity `escapeHtml` emits begins at position `i` of `s`. */
  predicate EntityAt(s: string, i: nat)
    requires i < |s|
  {
    var t := s[i..];
    StartsWith(t, "&amp;") || StartsWith(t, "&lt;") || StartsWith(t, "&gt;")
    || StartsWith(t, "&quot;") || StartsWith(t, "&#39;")
  }

  lemma EntityAtShift(a: string, b: string, i: nat)
    requires i < |b| && EntityAt(b, i)
    ensures EntityAt(a + b, |a| + i)
  {
    assert (a + b)[|a| + i..] == b[i..];
  }

  /** Every `&` in escaped output is the first character of one of the five
      entities, so no `&` of the input survives bare. */
  lemma {:induction false} EscapedAmpersandsBeginEntities(s: string)
    ensures forall i :: 0 <= i < |EscapeHtml(s)| && EscapeHtml(s)[i] == '&' ==> EntityAt(EscapeHtml(s), i)
    decreases |s|
  {
    if |s| > 0 {
      var head := EscapeChar(s[0]);
      var tail := EscapeHtml(s[1..]);
      var r := head + tail;
      assert r == EscapeHtml(s);
      EscapedAmpersandsBeginEntities(s[1..]);
      forall i | 0 <= i < |r| && r[i] == '&'
        ensures EntityAt(r, i)
      {
        if i < |head| {
          assert IsSpecial(s[0]) && i == 0;
          assert r[0..] == r;
          assert r[..|head|] == head;
        } else {
          assert tail[i - |head|] == '&';
          EntityAtShift(head, tail, i - |head|);
        }
      }
    }
  }

  /** Decoding of the five entities `escapeHtml` emits, as an HTML parser
      reads them back: the reference that states what escaping preserves. */
  function UnescapeHtml(s: string): string
    decreases |s|
  {
    if |s| == 0 then ""
    else if StartsWith(s, "&amp;") then "&" + UnescapeHtml(s[5..])
    else if StartsWith(s, "&lt;") then "<" + UnescapeHtml(s[4..])
    else if StartsWith(s, "&gt;") then ">" + UnescapeHtml(s[4..])
    else if StartsWith(s, "&quot;") then "\"" + UnescapeHtml(s[6..])
    else if StartsWith(s, "&#39;") then "'" + UnescapeHtml(s[5..])
    else [s[0]] + UnescapeHtml(s[1..])
  }

  lemma UnescapeAmp(t: string)
    ensures UnescapeHtml("&amp;" + t) == "&" + UnescapeHtml(t)
  {
    var s := "&amp;" + t;
    assert s[..5] == "&amp;";
    assert s[5..] == t;
  }

  lemma UnescapeLt(t: string)
    ensures UnescapeHtml("&lt;" + t) == "<" + UnescapeHtml(t)
  {
    var s := "&lt;" + t;
    assert !StartsWith(s, "&amp;") by { assert s[1] == 'l'; }
    assert s[..4] == "&lt;";
    assert s[4..] == t;
  }

  lemma UnescapeGt(t: string)
    ensures UnescapeHtml("&gt;" + t) == ">" + UnescapeHtml(t)
  {
    var s := "&gt;" + t;
    assert !StartsWith(s, "&amp;") by { assert s[1] == 'g'; }
    assert !StartsWith(s, "&lt;") by { assert s[1] == 'g'; }
    assert s[..4] == "&gt;";
    assert s[4..] == t;
  }

  lemma UnescapeQuot(t: string)
    ensures UnescapeHtml("&quot;" + t) == "\"" + UnescapeHtml(t)
  {
    var s := "&quot;" + t;
    assert !StartsWith(s, "&amp;") by { assert s[1] == 'q'; }
    assert !StartsWith(s, "&lt;") by { assert s[1] == 'q'; }
    assert !StartsWith(s, "&gt;") by { assert s[1] == 'q'; }
    assert s[..6] == "&quot;";
    assert s[6..] == t;
  }

  lemma UnescapeApos(t: string)
    ensures UnescapeHtml("&#39;" + t) == "'" + UnescapeHtml(t)
  {
    var s := "&#39;" + t;
    assert !StartsWith(s, "&amp;") by { assert s[1] == '#'; }
    assert !StartsWith(s, "&lt;") by { assert s[1] == '#'; }
    assert !StartsWith(s, "&gt;") by { assert s[1] == '#'; }
    assert !StartsWith(s, "&quot;") by { assert s[1] == '#'; }
    assert s[..5] == "&#39;";
    assert s[5..] == t;
  }

  lemma UnescapePlain(c: char, t: string)
    requires c != '&'
    ensures UnescapeHtml([c] + t) == [c] + UnescapeHtml(t)
  {
    var s := [c] + t;
    assert s[0] == c;
    assert s[1..] == t;
  }

  lemma UnescapeEscapeChar(c: char, t: string)
    ensures UnescapeHtml(EscapeChar(c) + t) == [c] + UnescapeHtml(t)
  {
    match c
    case '&' => UnescapeAmp(t);
    case '<' => UnescapeLt(t);
    case '>' => UnescapeGt(t);
    case '"' => UnescapeQuot(t);
    case '\'' => UnescapeApos(t);
    case _ => UnescapePlain(c, t);
  }

  /** Escaping loses nothing: decoding the escaped text gives back the
      original, so every character other than the five is kept, in order. */
  lemma {:induction false} UnescapeInvertsEscape(s: string)
    ensures UnescapeHtml(EscapeHtml(s)) == s
    decreases |s|
  {
    if |s| > 0 {
      UnescapeEscapeChar(s[0], EscapeHtml(s[1..]));
      UnescapeInvertsEscape(s[1..]);
      assert [s[0]] + s[1..] == s;
    }
  }
}
